=== FILE: README.md ===
# Licence lifecycle and CAPTCHA gate, modelled in Dafny

This project models the server side of a chat application's licence
backend. Two route files are covered:

- `server/routes/license.ts` holds three request handlers:
  - verify returns an entitlement snapshot;
  - activate redeems a licence key for an account;
  - increment records one sent message.

  The model also covers the key normalisation used by activate
  (`licenseKey.replace(/-/g, "").toUpperCase()`) and the maintenance-flag
  read.
- `server/routes/captcha.ts` checks a Cloudflare Turnstile token through
  the siteverify service. The model states its fail-closed decision ladder.

The document store is a value of type `Store.Store`:

- `users` is a sequence of user documents. A query answers with its first
  match, as `docs[0]` does in the handlers.
- `licenseKeys` is a sequence of key records.
- `license` is a map from user id to that user's `license/current` document.
- `maintenance` is the optional `enabled` flag of `config/maintenance`.

Module `License` defines the handlers as functions. Each one takes the
store, the request and the clock, and returns a `Step`: the reply plus the
new store. Class `LicenseService.LicenseDatabase` holds the same four
collections as fields. Its activate and increment methods update them
document by document, as the handlers do. Each method is proved to agree
with the corresponding function. Times are integer milliseconds, and a
`now: Instant` parameter stands for the clock. A request field that is
absent or empty is the empty string, since both fail the handlers'
`!field` tests.

The model follows what the code does, including where it departs from the
behaviour the system is meant to have:

- Activation never writes `usedBy` back to the key record, so a key is
  never bound to the account that redeemed it. An unbound key can be
  redeemed again by any other account (`License.ActivationNeverBindsKey`).
  The intended behaviour is that a key is bound to at most one account.
- Verify does not read the store. On success it answers the fixed free-tier
  snapshot, with `maintenanceMode` false.
- Normalisation removes hyphens only. Spaces, underscores and other
  separators are kept.
- Increment is a plain read-then-write with no transaction, and it does not
  enforce the message limit.

## Model

| member | source | states |
|---|---|---|
| KeyFormat.UpperAscii | server/routes/license.ts:72 | one character upper-cased: a lower-case ASCII letter becomes its own capital, the result is never lower-case, a hyphen exactly when the input is one, other characters unchanged |
| KeyFormat.StripHyphens | server/routes/license.ts:72 | the `replace(/-/g, "")` step: the result has no hyphen and is no longer than the input |
| KeyFormat.UpperCase | server/routes/license.ts:72 | the `toUpperCase()` step: same length, each character upper-cased in place |
| KeyFormat.Normalize | server/routes/license.ts:72 | a normalised key has no hyphen, no lower-case ASCII letter, and is never longer than the raw key |
| KeyFormat.NormalizeLength | server/routes/license.ts:72 | the normalised key is shorter than the raw key by exactly its number of hyphens |
| KeyFormat.NormalizeCons | server/routes/license.ts:72 | normalisation goes character by character in order: a hyphen vanishes, anything else is upper-cased |
| KeyFormat.NormalizeAppend | server/routes/license.ts:72 | normalising a concatenation concatenates the normalised parts |
| KeyFormat.NormalizeHyphenFree | server/routes/license.ts:72 | a key with no hyphen only changes case and keeps its length, so spaces and underscores are kept |
| KeyFormat.NormalizeIdempotent | server/routes/license.ts:72 | normalising twice is the same as normalising once |
| KeyFormat.NormalizeIgnoresCase | server/routes/license.ts:72 | a key and its upper-cased form normalise to the same value |
| KeyFormat.NormalizeIgnoresHyphen | server/routes/license.ts:72 | inserting a hyphen anywhere does not change the normalised key |
| KeyFormat.NormalizeExample | server/routes/license.ts:72 | `ab12-cd34` and `AB12CD34` both normalise to `AB12CD34` |
| Store.UserIndex | server/routes/license.ts:55-70 | the first user with the email, or none exactly when no user has it |
| Store.KeyIndex | server/routes/license.ts:74-88 | the first key record that is active and has the normalised key, or none exactly when no such record exists |
| Store.UserIndexSameEmails | server/routes/license.ts:55-68 | the user lookup depends only on emails, so flag updates do not move it |
| Store.MaintenanceMode | server/routes/license.ts:204-212 | maintenance mode is on exactly when the stored flag is true; absent or unreadable means off |
| License.Verify | server/routes/license.ts:10-43 | missing email or device id gives 400 with `valid = false`; otherwise the fixed free-tier snapshot expiring one year after `now`, or 500 when that date cannot be formatted; the granted count is below the limit |
| License.VerifyIgnoresLicenseKey | server/routes/license.ts:12-35 | the licence key of a verify request does not affect the reply |
| License.Activate | server/routes/license.ts:45-147 | the check ladder: 400 exactly on a missing field, 404 for an unknown user, 404 without an active matching key, 403 with only the "already in use" error exactly when the key is bound to another account, 500 exactly when the matched unbound key's expiry is not a valid date, success exactly when every check passes and the expiry is a valid date; every refusal leaves the store unchanged, key registry and maintenance flag are never written |
| License.ActivateGranted | server/routes/license.ts:97-140 | on success the caller's licence document takes plan, normalised key and expiry from the key record, with count 0, the limit or 0, and reset date `now`; it is created with `userId` when absent; the caller's ban and suspension are cleared; no other user or licence document changes |
| License.ActivateKeyVariants | server/routes/license.ts:72-88 | keys differing only in hyphens and case give the same activation outcome |
| License.ActivateTwice | server/routes/license.ts:91-119 | re-activating the same key for the same account succeeds with the same reply and changes only `lastResetDate` |
| License.ActivationNeverBindsKey | server/routes/license.ts:88-124 | after a successful activation of an unbound key (`usedBy` absent or empty), another existing account can still redeem it |
| License.ActivateExample | server/routes/license.ts:45-140 | an unbound active Pro key with limit 1000, redeemed as `ab12-cd34`, gives a valid Pro snapshot with limit 1000, count 0 and sending allowed |
| License.IncrementMessageCount | server/routes/license.ts:149-202 | 400 on a missing email, 404 for an unknown user or a missing licence document, with no change; otherwise the count becomes the old count (0 if absent) plus one, nothing else changes, and the reply carries the new count and the stored limit |
| License.IncrementIgnoresLimit | server/routes/license.ts:185-195 | a caller at or over the limit is still counted, past the limit |
| License.IncrementTimesAdds | server/routes/license.ts:175-189 | n increments in sequence raise the count by exactly n and change nothing else |
| LicenseService.LicenseDatabase.HandleLicenseActivate | server/routes/license.ts:45-147 | the in-place handler replies and updates the store exactly as `License.Activate` says, and never writes key records or the maintenance flag |
| LicenseService.LicenseDatabase.HandleIncrementMessageCount | server/routes/license.ts:149-202 | the in-place handler replies and updates the store exactly as `License.IncrementMessageCount` says; users, keys and the flag are untouched |
| Captcha.HandleCaptchaVerify | server/routes/captcha.ts:16-77 | success exactly when the token and secret are present and the service replied OK with `success`, and then only `challenge_ts` and `hostname` are forwarded; each failure reply is `{success: false, error}` with its own message and nothing else: empty token 400, missing secret 500, a non-OK reply 500, an exception 500, and a refusal 403 which alone adds the service's `error_codes` |
| Captcha.NoUpstreamCallWithoutTokenOrSecret | server/routes/captcha.ts:20-34 | without a token or a secret the reply does not depend on the service, which is never asked |
| Captcha.FailsClosed | server/routes/captcha.ts:27-76 | a missing secret, a service failure or a service refusal never gives success |

## Left out

- Store access: the Firestore calls are modelled as total lookups and updates of the store's sequences and map. Store failures are not modelled, so the 500 replies of the handlers' catch blocks arise only where the model has a cause, namely a date that cannot be formatted.
- The `updateDoc(...).catch(setDoc)` fallback is modelled only as "update the licence document if present, else create it".
- Concurrency: calls are sequential. The handlers' plain read-then-write gives no compare-and-set on key binding and no atomic increment, and racing calls are not modelled.
- Dates: instants are integer milliseconds, and ISO-8601 formatting is not modelled. A key's `expiresAt` that is not a valid date is `None`.
- Request fields are strings. A non-string `licenseKey`, for which `replace` would throw, is not modelled. Stored counts, limits and the maintenance `enabled` field are numbers and booleans, and other JavaScript truthy values are not modelled.
- Counts, limits and instants are unbounded integers. The source's JavaScript numbers are IEEE doubles: `(messageCount || 0) + 1` is exact only below 2^53 (at 2^53 the count stops rising), and stored limits or expiries may be fractional. That double arithmetic is not modelled.
- License.IncrementTimesAdds: "raised by exactly n" holds of the source only while counts stay below 2^53, because the model's counts are unbounded integers rather than doubles.
- Licence documents are modelled with the fields the handlers write and read. Other fields of stored documents are not modelled.
- KeyFormat.Normalize: upper-cases only the ASCII letters a-z, whereas `toUpperCase` also maps non-ASCII letters.
- The imports from `@shared/api` are type annotations only (`LicenseVerificationRequest` and `LicenseVerificationResponse` at server/routes/license.ts:12, 21 and 140) with no run-time effect; `Warning`, `SecurityAlert` and the `../lib/licenseUtils` functions are imported but unused. Their code is not part of this model.
- The `fetch` to the siteverify service and the decoding of its JSON reply are an input of type `Captcha.Upstream`. A missing `success` field counts as false. The `score` and `action` fields are never read.
- The secret from `process.env` is a parameter.
- Logging (`console.error`) is not modelled.
- `client/lib/deviceFingerprint.ts`, `client/lib/turnstile.ts`, `server/lib/firebase-admin.ts`, `client/pages/Admin.tsx` and `client/components/InputArea.tsx` are not part of this model: they are library glue, SDK set-up and user interface.

=== FILE: captcha.dfy ===
/**
 * `handleCaptchaVerify` (server/routes/captcha.ts:16-77): a Cloudflare
 * Turnstile token is checked against the siteverify service with the
 * server's secret. The outcome of the call to the service is an input here;
 * on the paths where the handler never makes the call, the reply does not
 * depend on that input (`NoUpstreamCallWithoutTokenOrSecret`).
 */
module Captcha {
  import opened Wrappers

  /** The fields of a siteverify reply that the handler reads. `success` is
      false when the field is absent. */
  datatype SiteverifyBody = SiteverifyBody(
    success: bool,
    errorCodes: Option<seq<string>>,
    challengeTs: Option<string>,
    hostname: Option<string>)

  /** The outcome of the call to the verification service. */
  datatype Upstream =
    | Threw                          // the request or the JSON decoding raised an exception
    | NotOk                          // an HTTP status outside 200-299
    | Replied(body: SiteverifyBody)  // an HTTP success with a decoded body

  /** The handler's reply: status and JSON body (absent fields are `None`). */
  datatype CaptchaReply = CaptchaReply(
    status: nat,
    success: bool,
    error: Option<string>,
    errorCodes: Option<seq<string>>,
    challengeTs: Option<string>,
    hostname: Option<string>)

  /** `CLOUDFLARE_TURNSTILE_SECRET_KEY` is set to a non-empty value. */
  predicate Configured(secret: Option<string>) {
    secret.Some? && secret.value != ""
  }

  /** The one path on which a challenge passes. */
  predicate Passes(token: string, secret: Option<string>, upstream: Upstream) {
    token != "" && Configured(secret) && upstream.Replied? && upstream.body.success
  }

  /** A failure reply: `{success: false, error}` and nothing else. */
  function Failure(status: nat, error: string): CaptchaReply {
    CaptchaReply(status, false, Some(error), None, None, None)
  }

  /** `handleCaptchaVerify`; `token` is "" when it is absent or empty. */
  function HandleCaptchaVerify(token: string, secret: Option<string>, upstream: Upstream): (r: CaptchaReply)
    ensures r.success <==> Passes(token, secret, upstream)
    ensures r.success ==>
      && upstream.Replied?
      && r.status == 200 && r.error.None? && r.errorCodes.None?
      && r.challengeTs == upstream.body.challengeTs && r.hostname == upstream.body.hostname
    ensures !r.success ==>
      r.status in {400, 403, 500} && r.error.Some? && r.challengeTs.None? && r.hostname.None?
    ensures token == "" ==> r == Failure(400, "Captcha token is required")
    ensures token != "" && !Configured(secret) ==>
      r == Failure(500, "Captcha verification service misconfigured")
    ensures token != "" && Configured(secret) && upstream.Threw? ==>
      r == Failure(500, "Captcha verification failed")
    ensures token != "" && Configured(secret) && upstream.NotOk? ==>
      r == Failure(500, "Failed to verify captcha")
    ensures token != "" && Configured(secret) && upstream.Replied? && !upstream.body.success ==>
      r == Failure(403, "Captcha verification failed").(errorCodes := upstream.body.errorCodes)
  {
    if token == "" then
      Failure(400, "Captcha token is required")
    else if !Configured(secret) then
      Failure(500, "Captcha verification service misconfigured")
    else match upstream
      case Threw => Failure(500, "Captcha verification failed")
      case NotOk => Failure(500, "Failed to verify captcha")
      case Replied(body) =>
        if !body.success then
          Failure(403, "Captcha verification failed").(errorCodes := body.errorCodes)
        else
          CaptchaReply(200, true, None, None, body.challengeTs, body.hostname)
  }

  /** Without a token or without a secret the service is never asked: the
      reply is the same whatever the service would have said. */
  lemma NoUpstreamCallWithoutTokenOrSecret(token: string, secret: Option<string>, a: Upstream, b: Upstream)
    requires token == "" || !Configured(secret)
    ensures HandleCaptchaVerify(token, secret, a) == HandleCaptchaVerify(token, secret, b)
  {
  }

  /** Fail closed: no failure of the configuration or of the service, and no
      refusal by it, ever lets a challenge through. */
  lemma FailsClosed(token: string, secret: Option<string>, upstream: Upstream)
    requires !Configured(secret) || upstream.Threw? || upstream.NotOk?
             || (upstream.Replied? && !upstream.body.success)
    ensures !HandleCaptchaVerify(token, secret, upstream).success
    ensures HandleCaptchaVerify(token, secret, upstream).status != 200
  {
  }
}

=== FILE: key_format.dfy ===
/**
 * Normalisation of human-entered licence keys (server/routes/license.ts:72):
 * every hyphen is deleted, then letters are upper-cased. Only the ASCII
 * letters a-z are upper-cased here; every other character is kept as it is.
 */
module KeyFormat {

  predicate IsLowerAscii(c: char) {
    'a' <= c <= 'z'
  }

  /** `toUpperCase` on one character, restricted to ASCII. */
  function UpperAscii(c: char): (d: char)
    ensures !IsLowerAscii(d)
    ensures IsLowerAscii(c) ==> 'A' <= d <= 'Z' && d as int - 'A' as int == c as int - 'a' as int
    ensures (d == '-') == (c == '-')
    ensures !IsLowerAscii(c) ==> d == c
  {
    if IsLowerAscii(c) then (c as int - 32) as char else c
  }

  /** `replace(/-/g, "")`: deletes every hyphen and keeps the rest in order. */
  function StripHyphens(s: string): (r: string)
    ensures '-' !in r
    ensures |r| <= |s|
  {
    if s == [] then []
    else if s[0] == '-' then StripHyphens(s[1..]) else [s[0]] + StripHyphens(s[1..])
  }

  /** `toUpperCase()`: upper-cases each character in place. */
  function UpperCase(s: string): (r: string)
    ensures |r| == |s|
    ensures forall i :: 0 <= i < |s| ==> r[i] == UpperAscii(s[i])
  {
    if s == [] then [] else [UpperAscii(s[0])] + UpperCase(s[1..])
  }

  /** `licenseKey.replace(/-/g, "").toUpperCase()`. */
  function Normalize(key: string): (r: string)
    ensures '-' !in r
    ensures forall i :: 0 <= i < |r| ==> !IsLowerAscii(r[i])
    ensures |r| <= |key|
  {
    UpperCase(StripHyphens(key))
  }

  /** Exactly the hyphens are removed: the length drops by their number. */
  lemma {:induction false} NormalizeLength(key: string)
    ensures |Normalize(key)| == |key| - multiset(key)['-']
  {
    if key != [] {
      assert key == [key[0]] + key[1..];
      NormalizeLength(key[1..]);
    }
  }

  lemma {:induction false} StripHyphensAppend(a: string, b: string)
    ensures StripHyphens(a + b) == StripHyphens(a) + StripHyphens(b)
  {
    if a == [] {
      assert a + b == b;
    } else {
      assert (a + b)[1..] == a[1..] + b;
      StripHyphensAppend(a[1..], b);
    }
  }

  lemma UpperCaseAppend(a: string, b: string)
    ensures UpperCase(a + b) == UpperCase(a) + UpperCase(b)
  {
    assert forall i :: 0 <= i < |a + b| ==> UpperCase(a + b)[i] == (UpperCase(a) + UpperCase(b))[i];
  }

  /** Normalisation works character by character: a hyphen disappears, any
      other character is upper-cased, and the order is kept. */
  lemma NormalizeCons(c: char, s: string)
    ensures Normalize([c] + s) == (if c == '-' then [] else [UpperAscii(c)]) + Normalize(s)
  {
    assert ([c] + s)[1..] == s;
  }

  lemma NormalizeAppend(a: string, b: string)
    ensures Normalize(a + b) == Normalize(a) + Normalize(b)
  {
    StripHyphensAppend(a, b);
    UpperCaseAppend(StripHyphens(a), StripHyphens(b));
  }

  lemma {:induction false} StripHyphensOfHyphenFree(s: string)
    requires '-' !in s
    ensures StripHyphens(s) == s
  {
    if s != [] {
      assert s[0] in s;
      assert forall c :: c in s[1..] ==> c in s;
      StripHyphensOfHyphenFree(s[1..]);
    }
  }

  /** A key without hyphens only changes case: spaces, underscores and every
      other character stay where they are. */
  lemma NormalizeHyphenFree(s: string)
    requires '-' !in s
    ensures Normalize(s) == UpperCase(s)
    ensures |Normalize(s)| == |s|
  {
    StripHyphensOfHyphenFree(s);
  }

  lemma UpperCaseOfUpper(s: string)
    requires forall i :: 0 <= i < |s| ==> !IsLowerAscii(s[i])
    ensures UpperCase(s) == s
  {
  }

  /** Normalising an already normalised key changes nothing. */
  lemma NormalizeIdempotent(key: string)
    ensures Normalize(Normalize(key)) == Normalize(key)
  {
    var r := Normalize(key);
    StripHyphensOfHyphenFree(r);
    UpperCaseOfUpper(r);
  }

  lemma {:induction false} StripHyphensUpperCase(s: string)
    ensures StripHyphens(UpperCase(s)) == UpperCase(StripHyphens(s))
  {
    if s != [] {
      assert UpperCase(s) == [UpperAscii(s[0])] + UpperCase(s[1..]);
      StripHyphensAppend([UpperAscii(s[0])], UpperCase(s[1..]));
      StripHyphensUpperCase(s[1..]);
      UpperCaseAppend([s[0]], StripHyphens(s[1..]));
    }
  }

  /** Case variants of a key normalise to the same value. */
  lemma NormalizeIgnoresCase(key: string)
    ensures Normalize(UpperCase(key)) == Normalize(key)
  {
    StripHyphensUpperCase(key);
    UpperCaseOfUpper(Normalize(key));
  }

  /** Hyphenation variants of a key normalise to the same value. */
  lemma NormalizeIgnoresHyphen(a: string, b: string)
    ensures Normalize(a + "-" + b) == Normalize(a + b)
  {
    NormalizeAppend(a + "-", b);
    NormalizeAppend(a, "-");
    NormalizeAppend(a, b);
  }

  lemma ExampleStripped()
    ensures StripHyphens("ab12-cd34") == "ab12cd34"
  {
    var a, b := "ab12", "cd34";
    StripHyphensAppend(a, "-" + b);
    StripHyphensOfHyphenFree(a);
    assert ("-" + b)[1..] == b;
    StripHyphensOfHyphenFree(b);
    assert a + ("-" + b) == "ab12-cd34";
    assert a + b == "ab12cd34";
  }

  lemma ExampleUpperCased()
    ensures UpperCase("ab12cd34") == "AB12CD34"
  {
  }

  /** The worked example: `ab12-cd34` and `AB12CD34` name the same key. */
  lemma NormalizeExample()
    ensures Normalize("ab12-cd34") == "AB12CD34"
    ensures Normalize("AB12CD34") == "AB12CD34"
  {
    ExampleStripped();
    ExampleUpperCased();
    NormalizeIdempotent("ab12-cd34");
  }
}

=== FILE: license.dfy ===
/**
 * The three licence routes of server/routes/license.ts as functions from the
 * store (and the request, and the clock) to the reply and the new store:
 * `handleLicenseVerify`, `handleLicenseActivate` and
 * `handleIncrementMessageCount`.
 */
module License {
  import opened Wrappers
  import opened KeyFormat
  import opened Store

  /** 365 days in milliseconds: the validity of the free-tier snapshot. */
  const YEAR_MS: int := 365 * 24 * 60 * 60 * 1000
  const FREE_PLAN: string := "Gratuit"
  const FREE_MESSAGE_LIMIT: int := 10

  /** The body of a verify or activate request; "" stands for a field that
      is absent or empty (both fail the handlers' `!field` tests). */
  datatype LicenseRequest = LicenseRequest(email: string, licenseKey: string, deviceId: string)

  /** The entitlement snapshot both verify and activate reply with. */
  datatype Snapshot = Snapshot(
    valid: bool,
    plan: string,
    messageLimit: int,
    messageCount: int,
    canSendMessage: bool,
    expiresAt: int,
    warnings: seq<string>,
    isBanned: bool,
    isSuspended: bool,
    alerts: seq<string>,
    maintenanceMode: bool)

  /** A reply of verify or activate: a snapshot with status 200, or an HTTP
      error status with its message (verify also sends `valid: false`). */
  datatype LicenseReply =
    | Granted(snapshot: Snapshot)
    | Refused(status: nat, valid: Option<bool>, error: string)
  {
    function Status(): nat {
      if Granted? then 200 else status
    }
  }

  /** A reply of increment: `{success: true, messageCount, messageLimit}` or an error. */
  datatype CountReply =
    | Counted(messageCount: int, messageLimit: Option<int>)
    | CountRefused(status: nat, error: string)

  /** What a handler answers and what the store holds afterwards. */
  datatype Step<R> = Step(reply: R, store: Store)

  // ---------------------------------------------------------------- verify

  function FreeTier(expiresAt: int): Snapshot {
    Snapshot(true, FREE_PLAN, FREE_MESSAGE_LIMIT, 0, true, expiresAt, [], false, false, [], false)
  }

  /** `handleLicenseVerify`. It reads nothing from the store, so the store is
      not a parameter: it cannot change. */
  function Verify(req: LicenseRequest, now: Instant): (r: LicenseReply)
    ensures r.Granted? <==> req.email != "" && req.deviceId != "" && IsoRepresentable(now + YEAR_MS)
    ensures req.email == "" || req.deviceId == "" ==>
      r == Refused(400, Some(false), "Email and device ID are required")
    ensures req.email != "" && req.deviceId != "" && !IsoRepresentable(now + YEAR_MS) ==>
      r == Refused(500, Some(false), "License verification failed")
    ensures r.Refused? ==> r.valid == Some(false) && r.Status() in {400, 500}
    ensures r.Granted? ==>
      var snap := r.snapshot;
      snap.valid && snap.plan == "Gratuit" && snap.messageLimit == 10 && snap.messageCount == 0
      && snap.canSendMessage && snap.expiresAt == now + 365 * 24 * 60 * 60 * 1000
      && snap.warnings == [] && snap.alerts == []
      && !snap.isBanned && !snap.isSuspended && !snap.maintenanceMode
    ensures r.Granted? ==> r.snapshot.messageCount < r.snapshot.messageLimit
  {
    if req.email == "" || req.deviceId == "" then
      Refused(400, Some(false), "Email and device ID are required")
    else if !IsoRepresentable(now + YEAR_MS) then
      // `toISOString` throws; the catch block answers 500
      Refused(500, Some(false), "License verification failed")
    else
      Granted(FreeTier(now + YEAR_MS))
  }

  /** The licence key of a verify request plays no part in the answer. */
  lemma VerifyIgnoresLicenseKey(req: LicenseRequest, key: string, now: Instant)
    ensures Verify(req.(licenseKey := key), now) == Verify(req, now)
  {
  }

  // -------------------------------------------------------------- activate

  predicate MissingField(req: LicenseRequest) {
    req.email == "" || req.licenseKey == "" || req.deviceId == ""
  }

  /** `licenseKeyData.usedBy && licenseKeyData.usedBy !== userId` */
  predicate BoundElsewhere(k: KeyRecord, id: UserId) {
    k.usedBy.Some? && k.usedBy.value != "" && k.usedBy.value != id
  }

  /** Both queries of activation find a document. */
  predicate Matched(s: Store, req: LicenseRequest) {
    UserIndex(s.users, req.email).Some? && KeyIndex(s.licenseKeys, Normalize(req.licenseKey)).Some?
  }

  /** The first active key record with the request's normalised key. */
  function MatchedKey(s: Store, req: LicenseRequest): KeyRecord
    requires Matched(s, req)
  {
    s.licenseKeys[KeyIndex(s.licenseKeys, Normalize(req.licenseKey)).value]
  }

  /** The key's expiry converts to an ISO-8601 string without throwing. */
  predicate HasValidExpiry(k: KeyRecord) {
    k.expiresAt.Some? && IsoRepresentable(k.expiresAt.value)
  }

  /** The licence document after activation: the existing one updated in
      place (`updateDoc`), or a new one carrying `userId` (`setDoc`). */
  function Written(prior: Option<LicenseState>, id: UserId, k: KeyRecord, clean: string, expiresAt: int, now: Instant): LicenseState {
    match prior
    case Some(st) =>
      st.(plan := k.plan, licenseKey := clean, expiresAt := expiresAt, isActive := true,
          messageCount := Some(0), messageLimit := Some(k.messageLimit.GetOr(0)), lastResetDate := now)
    case None =>
      LicenseState(k.plan, clean, expiresAt, true, Some(0), Some(k.messageLimit.GetOr(0)), now, Some(id))
  }

  /** `handleLicenseActivate`. */
  function Activate(s: Store, req: LicenseRequest, now: Instant): (r: Step<LicenseReply>)
    ensures r.reply.Refused? ==> r.store == s
    ensures r.store.licenseKeys == s.licenseKeys && r.store.maintenance == s.maintenance
    ensures r.reply.Status() == 400 <==> MissingField(req)
    ensures MissingField(req) ==>
      r.reply == Refused(400, None, "Email, license key, and device ID are required")
    ensures !MissingField(req) && !HasUser(s.users, req.email) ==>
      r.reply == Refused(404, None, "User not found")
    ensures !MissingField(req) && HasUser(s.users, req.email)
            && !HasActiveKey(s.licenseKeys, Normalize(req.licenseKey)) ==>
      r.reply == Refused(404, None, "Invalid or inactive license key")
    ensures r.reply.Status() == 403 <==>
      !MissingField(req) && Matched(s, req) && BoundElsewhere(MatchedKey(s, req), Caller(s.users, req.email).id)
    ensures r.reply.Status() == 403 ==>
      r.reply == Refused(403, None, "This license key is already in use by another account")
    ensures r.reply.Status() == 500 <==>
      !MissingField(req) && Matched(s, req)
      && !BoundElsewhere(MatchedKey(s, req), Caller(s.users, req.email).id)
      && !HasValidExpiry(MatchedKey(s, req))
    ensures r.reply.Status() == 500 ==> r.reply == Refused(500, None, "License activation failed")
    ensures r.reply.Granted? <==>
      !MissingField(req) && Matched(s, req)
      && !BoundElsewhere(MatchedKey(s, req), Caller(s.users, req.email).id)
      && HasValidExpiry(MatchedKey(s, req))
    ensures r.reply.Granted? ==>
      var snap := r.reply.snapshot;
      snap.valid && snap.canSendMessage && snap.messageCount == 0
      && !snap.isBanned && !snap.isSuspended && snap.warnings == [] && snap.alerts == []
      && snap.maintenanceMode == (s.maintenance == Some(true))
  {
    if MissingField(req) then
      Step(Refused(400, None, "Email, license key, and device ID are required"), s)
    else if !HasUser(s.users, req.email) then
      Step(Refused(404, None, "User not found"), s)
    else if !HasActiveKey(s.licenseKeys, Normalize(req.licenseKey)) then
      Step(Refused(404, None, "Invalid or inactive license key"), s)
    else
      var user := Caller(s.users, req.email);
      var key := MatchedKey(s, req);
      if BoundElsewhere(key, user.id) then
        Step(Refused(403, None, "This license key is already in use by another account"), s)
      else if !HasValidExpiry(key) then
        // `toISOString` throws before anything is written; the catch block answers 500
        Step(Refused(500, None, "License activation failed"), s)
      else
        var u := UserIndex(s.users, req.email).value;
        var clean := Normalize(req.licenseKey);
        var expiresAt := key.expiresAt.value;
        var prior := if user.id in s.license then Some(s.license[user.id]) else None;
        var license := s.license[user.id := Written(prior, user.id, key, clean, expiresAt, now)];
        var users := s.users[u := user.(isBanned := false, isSuspended := false)];
        var snap := Snapshot(true, key.plan, key.messageLimit.GetOr(0), 0, true, expiresAt,
                             [], false, false, [], MaintenanceMode(s.maintenance));
        Step(Granted(snap), s.(users := users, license := license))
  }

  /** A successful activation writes the caller's licence document from the
      key record, lifts the caller's ban and suspension, and changes nothing
      else: no other user, no other licence document, no key record. */
  lemma ActivateGranted(s: Store, req: LicenseRequest, now: Instant)
    requires Activate(s, req, now).reply.Granted?
    ensures Matched(s, req) && HasValidExpiry(MatchedKey(s, req))
    ensures
      var r := Activate(s, req, now);
      var u := UserIndex(s.users, req.email).value;
      var user := Caller(s.users, req.email);
      var key := MatchedKey(s, req);
      var st := r.store.license[user.id];
      && user.id in r.store.license
      && st.plan == key.plan && st.licenseKey == Normalize(req.licenseKey)
      && st.expiresAt == key.expiresAt.value && st.isActive
      && st.messageCount == Some(0) && st.messageLimit == Some(key.messageLimit.GetOr(0))
      && st.lastResetDate == now
      && st.userId == (if user.id in s.license then s.license[user.id].userId else Some(user.id))
      && |r.store.users| == |s.users|
      && r.store.users[u] == user.(isBanned := false, isSuspended := false)
      && (forall i :: 0 <= i < |s.users| && i != u ==> r.store.users[i] == s.users[i])
      && r.store.license.Keys == s.license.Keys + {user.id}
      && (forall id :: id in s.license && id != user.id ==> r.store.license[id] == s.license[id])
      && r.reply.snapshot.plan == key.plan
      && r.reply.snapshot.messageLimit == key.messageLimit.GetOr(0)
      && r.reply.snapshot.expiresAt == key.expiresAt.value
  {
  }

  /** Keys that differ only in hyphens and letter case select the same record
      and so give the same outcome. */
  lemma ActivateKeyVariants(s: Store, req: LicenseRequest, other: string, now: Instant)
    requires other != "" && req.licenseKey != ""
    requires Normalize(other) == Normalize(req.licenseKey)
    ensures Activate(s, req.(licenseKey := other), now) == Activate(s, req, now)
  {
  }

  /** Activating the same key for the same account a second time succeeds
      with the same reply, and the store differs only in `lastResetDate`. */
  lemma ActivateTwice(s: Store, req: LicenseRequest, now: Instant, later: Instant)
    requires Activate(s, req, now).reply.Granted?
    ensures
      var first := Activate(s, req, now);
      var second := Activate(first.store, req, later);
      var id := Caller(s.users, req.email).id;
      && second.reply == first.reply
      && id in first.store.license
      && second.store == first.store.(license := first.store.license[id := first.store.license[id].(lastResetDate := later)])
  {
    var first := Activate(s, req, now);
    ActivateGranted(s, req, now);
    UserIndexSameEmails(s.users, first.store.users, req.email);
  }

  /** Activation never records the caller in the key's `usedBy`: a key that
      was unbound stays redeemable by every other account afterwards. */
  lemma ActivationNeverBindsKey(s: Store, req: LicenseRequest, other: LicenseRequest, now: Instant, later: Instant)
    requires Activate(s, req, now).reply.Granted?
    requires MatchedKey(s, req).usedBy.None? || MatchedKey(s, req).usedBy == Some("")
    requires !MissingField(other) && HasUser(s.users, other.email)
    requires Normalize(other.licenseKey) == Normalize(req.licenseKey)
    ensures Activate(Activate(s, req, now).store, other, later).reply.Granted?
  {
    var first := Activate(s, req, now);
    ActivateGranted(s, req, now);
    UserIndexSameEmails(s.users, first.store.users, other.email);
  }

  /** The worked example: an unbound active key `AB12CD34` on the Pro plan,
      redeemed as `ab12-cd34`. */
  lemma ActivateExample(now: Instant, expiry: Instant)
    ensures
      var s := Store([User("u1", "a@x.com", false, false)],
                     [KeyRecord("AB12CD34", true, None, "Pro", Some(1000), Some(expiry))],
                     map[], None);
      var r := Activate(s, LicenseRequest("a@x.com", "ab12-cd34", "d1"), now);
      && r.reply.Granted?
      && r.reply.snapshot.valid && r.reply.snapshot.plan == "Pro"
      && r.reply.snapshot.messageLimit == 1000 && r.reply.snapshot.messageCount == 0
      && r.reply.snapshot.canSendMessage
  {
    NormalizeExample();
  }

  // ------------------------------------------------------------- increment

  /** The caller exists and has a licence document. */
  predicate HasLicense(s: Store, email: string) {
    HasUser(s.users, email) && Caller(s.users, email).id in s.license
  }

  /** `handleIncrementMessageCount`. */
  function IncrementMessageCount(s: Store, email: string): (r: Step<CountReply>)
    ensures r.reply.CountRefused? ==> r.store == s
    ensures email == "" ==> r.reply == CountRefused(400, "Email is required")
    ensures email != "" && !HasUser(s.users, email) ==> r.reply == CountRefused(404, "User not found")
    ensures email != "" && HasUser(s.users, email) && !HasLicense(s, email) ==>
      r.reply == CountRefused(404, "License not found")
    ensures r.reply.Counted? <==> email != "" && HasLicense(s, email)
    ensures r.reply.Counted? ==>
      var id := Caller(s.users, email).id;
      var st := s.license[id];
      && r.reply.messageCount == st.messageCount.GetOr(0) + 1
      && r.reply.messageLimit == st.messageLimit
      && r.store == s.(license := s.license[id := st.(messageCount := Some(r.reply.messageCount))])
  {
    if email == "" then
      Step(CountRefused(400, "Email is required"), s)
    else match UserIndex(s.users, email)
      case None => Step(CountRefused(404, "User not found"), s)
      case Some(u) =>
        var id := s.users[u].id;
        if id !in s.license then
          Step(CountRefused(404, "License not found"), s)
        else
          var st := s.license[id];
          var newCount := st.messageCount.GetOr(0) + 1;
          Step(Counted(newCount, st.messageLimit), s.(license := s.license[id := st.(messageCount := Some(newCount))]))
  }

  /** The limit is not enforced: a caller already at or over the limit is
      still counted. */
  lemma IncrementIgnoresLimit(s: Store, email: string)
    requires email != "" && HasLicense(s, email)
    requires var st := s.license[Caller(s.users, email).id];
      st.messageLimit.Some? && st.messageCount.GetOr(0) >= st.messageLimit.value
    ensures IncrementMessageCount(s, email).reply.Counted?
    ensures IncrementMessageCount(s, email).reply.messageCount > s.license[Caller(s.users, email).id].messageLimit.value
  {
  }

  /** The store after `n` increments, one after the other, for one account. */
  function IncrementTimes(s: Store, email: string, n: nat): Store
    decreases n
  {
    if n == 0 then s else IncrementTimes(IncrementMessageCount(s, email).store, email, n - 1)
  }

  /** `n` sequential increments raise the caller's count by exactly `n` and
      touch nothing else. */
  lemma {:induction false} IncrementTimesAdds(s: Store, email: string, n: nat)
    requires email != "" && HasLicense(s, email)
    ensures
      var t := IncrementTimes(s, email, n);
      var id := Caller(s.users, email).id;
      && t.users == s.users && t.licenseKeys == s.licenseKeys && t.maintenance == s.maintenance
      && t.license.Keys == s.license.Keys
      && t.license[id].messageCount.GetOr(0) == s.license[id].messageCount.GetOr(0) + n
      && t.license[id] == s.license[id].(messageCount := t.license[id].messageCount)
      && (forall other :: other in s.license && other != id ==> t.license[other] == s.license[other])
    decreases n
  {
    if n > 0 {
      var next := IncrementMessageCount(s, email).store;
      assert next.users == s.users;
      IncrementTimesAdds(next, email, n - 1);
    }
  }
}

=== FILE: license_service.dfy ===
/**
 * The licence routes as they run against the document store: a store object
 * whose collections the activate and increment handlers update document by
 * document (server/routes/license.ts:45-202). Each handler is proved to
 * answer and to leave the store exactly as the functions of module
 * `License` say.
 */
module LicenseService {
  import opened Wrappers
  import opened KeyFormat
  import opened Store
  import opened License

  class LicenseDatabase {
    var users: seq<User>
    var licenseKeys: seq<KeyRecord>
    var license: map<UserId, LicenseState>
    var maintenance: Option<bool>

    /** The contents of the store as a value. */
    function State(): Store
      reads this
    {
      Store(users, licenseKeys, license, maintenance)
    }

    constructor (initial: Store)
      ensures State() == initial
    {
      users := initial.users;
      licenseKeys := initial.licenseKeys;
      license := initial.license;
      maintenance := initial.maintenance;
    }

    /** `handleLicenseActivate`: the checks in order, then the write of the
        licence document, then the write of the user's flags. */
    method HandleLicenseActivate(req: LicenseRequest, now: Instant) returns (reply: LicenseReply)
      modifies this
      ensures reply == Activate(old(State()), req, now).reply
      ensures State() == Activate(old(State()), req, now).store
      ensures licenseKeys == old(licenseKeys) && maintenance == old(maintenance)
    {
      if req.email == "" || req.licenseKey == "" || req.deviceId == "" {
        return Refused(400, None, "Email, license key, and device ID are required");
      }
      var u := UserIndex(users, req.email);
      if u.None? {
        return Refused(404, None, "User not found");
      }
      var user := users[u.value];
      var clean := Normalize(req.licenseKey);
      var k := KeyIndex(licenseKeys, clean);
      if k.None? {
        return Refused(404, None, "Invalid or inactive license key");
      }
      var key := licenseKeys[k.value];
      if BoundElsewhere(key, user.id) {
        return Refused(403, None, "This license key is already in use by another account");
      }
      if !HasValidExpiry(key) {
        return Refused(500, None, "License activation failed");
      }
      var expiresAt := key.expiresAt.value;
      var limit := key.messageLimit.GetOr(0);
      if user.id in license {
        // updateDoc: the existing document keeps its other fields
        license := license[user.id := license[user.id].(
          plan := key.plan, licenseKey := clean, expiresAt := expiresAt, isActive := true,
          messageCount := Some(0), messageLimit := Some(limit), lastResetDate := now)];
      } else {
        // the update failed on a missing document: setDoc creates it
        license := license[user.id :=
          LicenseState(key.plan, clean, expiresAt, true, Some(0), Some(limit), now, Some(user.id))];
      }
      users := users[u.value := user.(isBanned := false, isSuspended := false)];
      var maintenanceMode := MaintenanceMode(maintenance);
      reply := Granted(Snapshot(true, key.plan, limit, 0, true, expiresAt, [], false, false, [], maintenanceMode));
    }

    /** `handleIncrementMessageCount`: read the licence document, then write
        back its count plus one. */
    method HandleIncrementMessageCount(email: string) returns (reply: CountReply)
      modifies this
      ensures reply == IncrementMessageCount(old(State()), email).reply
      ensures State() == IncrementMessageCount(old(State()), email).store
      ensures users == old(users) && licenseKeys == old(licenseKeys) && maintenance == old(maintenance)
    {
      if email == "" {
        return CountRefused(400, "Email is required");
      }
      var u := UserIndex(users, email);
      if u.None? {
        return CountRefused(404, "User not found");
      }
      var id := users[u.value].id;
      if id !in license {
        return CountRefused(404, "License not found");
      }
      var current := license[id];
      var newCount := current.messageCount.GetOr(0) + 1;
      license := license[id := current.(messageCount := Some(newCount))];
      reply := Counted(newCount, current.messageLimit);
    }
  }
}

=== FILE: store.dfy ===
/**
 * The document store the licence routes read and write
 * (server/routes/license.ts), as plain values: the `users` and
 * `licenseKeys` collections, the `users/{id}/license/current` documents
 * and the `config/maintenance` flag. Queries become first-match lookups.
 */
module Store {
  import opened Wrappers

  type UserId = string

  /** Largest magnitude, in milliseconds from the epoch, that a JavaScript
      `Date` can hold; `toISOString` throws a RangeError beyond it. */
  const MAX_DATE_MS: int := 8_640_000_000_000_000

  predicate IsoRepresentable(ms: int) {
    -MAX_DATE_MS <= ms <= MAX_DATE_MS
  }

  /** A clock reading, in milliseconds from the epoch. */
  type Instant = ms: int | IsoRepresentable(ms)

  /** A document of the `users` collection. */
  datatype User = User(id: UserId, email: string, isBanned: bool, isSuspended: bool)

  /** A document of the `licenseKeys` collection. `usedBy` names the account
      the key is bound to; `None` and `Some("")` both leave it unbound.
      `expiresAt` is `None` when the stored value is not a valid date. */
  datatype KeyRecord = KeyRecord(
    key: string,
    isActive: bool,
    usedBy: Option<UserId>,
    plan: string,
    messageLimit: Option<int>,
    expiresAt: Option<int>)

  /** The document `users/{id}/license/current`. */
  datatype LicenseState = LicenseState(
    plan: string,
    licenseKey: string,
    expiresAt: int,
    isActive: bool,
    messageCount: Option<int>,
    messageLimit: Option<int>,
    lastResetDate: int,
    userId: Option<UserId>)

  /** The whole store. `maintenance` is the `enabled` field of
      `config/maintenance`, `None` when it is absent or cannot be read. */
  datatype Store = Store(
    users: seq<User>,
    licenseKeys: seq<KeyRecord>,
    license: map<UserId, LicenseState>,
    maintenance: Option<bool>)

  predicate HasUser(users: seq<User>, email: string) {
    exists i :: 0 <= i < |users| && users[i].email == email
  }

  predicate IsActiveKey(k: KeyRecord, clean: string) {
    k.key == clean && k.isActive
  }

  predicate HasActiveKey(keys: seq<KeyRecord>, clean: string) {
    exists j :: 0 <= j < |keys| && IsActiveKey(keys[j], clean)
  }

  /** `docs[0]` of the query `users where email == email`: the index of the
      first user with that email, if any. */
  function UserIndex(users: seq<User>, email: string): (r: Option<nat>)
    ensures r.None? <==> !HasUser(users, email)
    ensures r.Some? ==> r.value < |users| && users[r.value].email == email
    ensures r.Some? ==> forall j :: 0 <= j < r.value ==> users[j].email != email
  {
    if users == [] then None
    else if users[0].email == email then Some(0)
    else match UserIndex(users[1..], email)
      case None => None
      case Some(i) => Some(i + 1)
  }

  /** `docs[0]` of the query `licenseKeys where key == clean and isActive == true`. */
  function KeyIndex(keys: seq<KeyRecord>, clean: string): (r: Option<nat>)
    ensures r.None? <==> !HasActiveKey(keys, clean)
    ensures r.Some? ==> r.value < |keys| && IsActiveKey(keys[r.value], clean)
    ensures r.Some? ==> forall j :: 0 <= j < r.value ==> !IsActiveKey(keys[j], clean)
  {
    if keys == [] then None
    else if IsActiveKey(keys[0], clean) then Some(0)
    else match KeyIndex(keys[1..], clean)
      case None => None
      case Some(i) => Some(i + 1)
  }

  /** The first user with this email: the caller of a licence route. */
  function Caller(users: seq<User>, email: string): User
    requires HasUser(users, email)
  {
    users[UserIndex(users, email).value]
  }

  /** The user query only looks at emails: changing other fields of the
      users in place does not move the first match. */
  lemma {:induction false} UserIndexSameEmails(a: seq<User>, b: seq<User>, email: string)
    requires |a| == |b|
    requires forall i :: 0 <= i < |a| ==> a[i].email == b[i].email
    ensures UserIndex(a, email) == UserIndex(b, email)
  {
    if a != [] {
      UserIndexSameEmails(a[1..], b[1..], email);
    }
  }

  /** `getMaintenanceMode`: the stored flag, or false when absent or unreadable. */
  function MaintenanceMode(flag: Option<bool>): (on: bool)
    ensures on <==> flag == Some(true)
  {
    flag.GetOr(false)
  }
}

=== FILE: wrappers.dfy ===
/** Optional values: a Firestore field or document that may be absent. */
module Wrappers {

  datatype Option<+T> = None | Some(value: T) {

    /** The value, or `default` when there is none. */
    function GetOr(default: T): T {
      match this
      case Some(v) => v
      case None => default
    }
  }
}
